=== FILE: README.md ===
# desktop-sharkie: animated frame delivery, in Dafny

A model of the sequential core of desktop-sharkie, a program that keeps an
animated shark sprite on top of the desktop. The core has three parts.

- **The frame pipeline** (`src/assets/mod.rs`). A background task decodes
  the 22 bundled PNG frames and drops any that fail to decode. It resizes the
  rest to the window and sends the raw RGBA buffers, in frame order, down an
  unbounded channel. Then it sets a shared `ready` flag. The frame cursor
  `Frames` is an iterator with two modes. While streaming, each `next()`
  receives one buffer, turns it into a texture, caches it and returns it.
  After `NUM_FRAMES` textures it switches once, for good, to looping. From
  then on it serves the cache in a cycle of `NUM_FRAMES` and drops the
  channel.
- **The event coordinator** (`src/main.rs`). This is the closure given to the
  event loop. A `Move` event bounces the window's x by 3 pixels between the
  screen area's bounds. A `Frame` event requests a redraw. A redraw pulls one
  frame from the cursor (on Windows, only at even redraw counts). A close
  request exits.
- **Screen geometry** (`src/measurements.rs`). Integer folds over the
  monitors give the bounding box of the screen area and the size of the
  leftmost monitor. The window's initial x comes from the box.

Files, one module each:

- `wrappers.dfy`: `Option` and `Result`.
- `misc.dfy`: `UserEvent`.
- `measurements.dfy`: the folds and `Measure`.
- `channel.dfy`: the channel, as a FIFO queue that can be disconnected.
- `assets.dfy`: the decode stage, the sending task and the `Frames` class.
- `frame_cycle.dfy`: lemmas about what a looping cursor serves over many
  calls.
- `app.dfy`: the bounce, the redraw throttle, the `Coordinator` class and the
  set-up in `main`.

Modelling choices:

- Image decoding (`load`), resizing with conversion to RGBA (`convert`) and
  the graphics backend's verdict on a texture (`Display.accepts`) are function
  parameters. Decoding and texture creation may each fail. Each parameter is
  taken to be a fixed function of its input: the same frame always decodes the
  same way, and the backend always gives the same verdict on the same buffer.
- A texture is an object of class `Texture`. Reference equality stands for
  the identity of an `Rc`. The cursor's ghost field `served` records every
  texture `next()` has returned, and `calls` counts the calls.
- `recv()` blocks while the channel is empty and the sender is alive. The
  model takes each call at the moment it returns. `NewFrames` runs the
  decoding task to completion before building the cursor. The task always
  finishes, and a blocking receive yields the next buffer or the
  disconnection. So the cursor sees the same results under any interleaving.
  `Frames.Valid` records that the sender is gone.
- The Windows build is the flag `windows`. Sprite size, taskbar height and
  the sprite's y coordinate are computed in floating point or come from the
  OS; here they are inputs.

Behaviour of the code that a reader of its comments might not expect, and
that the model keeps:

- The cycle length is the constant `NUM_FRAMES`, not the number of frames that
  decoded. If a frame fails to decode, the cursor does not loop over fewer
  frames. Once the channel is drained, `next()` returns `None`, and the
  redraw's `unwrap` is fatal. See `Frames.ShortStreamNeverLoops` and the
  streaming clauses of `Frames.Next`.
- `next()` can return `None`: when the channel is disconnected and drained,
  when the receiver is gone, or when texture creation fails.
- The window does not stay within [area_min_x - sprite_width, area_max_x]. It
  turns only after crossing a bound, so it overshoots by up to one step of 3
  pixels. `BounceOvershoots` shows a case, and `BounceStaysInBand` proves the
  one-step bound.

## Model

| member | source | states |
|---|---|---|
| Measurements.Extend | src/measurements.rs:26-53 | one fold step gives a box that encloses the new monitor and the box so far, each edge taken from one of the two |
| Measurements.BoundsFold | src/measurements.rs:25-55 | `None` exactly for no monitors; otherwise a box whose min corner is at or below every monitor's position and whose max corner is at or above every monitor's position + size, each edge reached by some monitor |
| Measurements.SingleMonitorArea | src/measurements.rs:43-52 | for one monitor the area runs from its position to its position + size |
| Measurements.LeftmostIndex | src/measurements.rs:63-77 | `None` exactly for no monitors; otherwise a monitor with the least x, and on ties the last one in iteration order |
| Measurements.InitialX | src/measurements.rs:121-129 | on Windows the sprite starts just left of the area, its right edge at area_min_x; elsewhere it starts at area_min_x; for a non-negative width x lies in [area_min_x - sprite_width, area_min_x] |
| Measurements.Measure | src/measurements.rs:22-147 | fails ("No monitors found") exactly when there are no monitors; otherwise the area bounds enclose and are attained by the monitors, area size is max - min and non-negative, monitor size is the size of the leftmost monitor (the last one on ties), initial x is area_min_x - sprite_width on Windows and area_min_x elsewhere |
| Channels.Channel.constructor | src/assets/mod.rs:64-65 | a new channel is empty and connected |
| Channels.Channel.Send | src/assets/mod.rs:84 | a send appends at the back of the queue |
| Channels.Channel.DropSender | src/assets/mod.rs:86 | dropping the sender disconnects the channel and keeps its queue |
| Channels.Channel.Recv | src/assets/mod.rs:106 | a receive yields the oldest buffer and removes it, or an error when the channel is drained and disconnected |
| Assets.Decoded | src/assets/mod.rs:69-80 | a frame yields a buffer exactly when it decodes |
| Assets.Collect | src/assets/mod.rs:67-81 | the decode stage yields at most one buffer per frame |
| Assets.Survivors | src/assets/mod.rs:68-72 | reference definition: the positions of exactly the frames that decode, in increasing order |
| Assets.CollectKeepsExactlyTheDecoded | src/assets/mod.rs:68-81 | buffer k is the converted k-th decodable frame, and there are as many buffers as decodable frames: failures are dropped, order is kept |
| Assets.CollectAppend | src/assets/mod.rs:68-81 | collecting two runs of frames is collecting each run and concatenating, so parallel decoding keeps frame order |
| Assets.CollectAllDecoded | src/assets/mod.rs:68-81 | when every frame decodes, buffer i comes from frame i and none is dropped |
| Assets.ReadyFlag.constructor | src/main.rs:125 | the readiness flag starts false, never stored |
| Assets.ReadyFlag.Store | src/assets/mod.rs:85 | storing sets the flag, counts one store and records how many buffers the channel had been sent at that moment |
| Assets.Produce | src/assets/mod.rs:67-86 | the channel receives exactly the collected buffers, in order; the flag is stored true exactly once, and at that store every buffer had already been sent; then the channel is disconnected |
| Assets.CreateTexture | src/assets/mod.rs:108-117 | texture creation succeeds exactly when the backend accepts the buffer, giving a new texture of the display's size made from it |
| Assets.Frames.constructor | src/assets/mod.rs:88-95 | a new cursor is streaming at index 0 with an empty cache, reading from the given channel |
| Assets.Frames.Next | src/assets/mod.rs:102-140 | looping: returns `completed[current]`, advances `current` modulo `NUM_FRAMES`, cache and receiver untouched; streaming with a buffer the backend accepts: appends one new texture and returns it, and at `NUM_FRAMES` switches to looping at 0 and drops the receiver; streaming with a drained channel, no receiver or a rejected buffer: returns `None` with cache, index and mode unchanged, and a drained channel stays drained, so every later call returns `None` too; keeps `Valid` (index below `NUM_FRAMES`, cache length equal to index while streaming and `NUM_FRAMES` once looping, call k served `completed[k mod NUM_FRAMES]`) |
| Assets.Frames.ShortStreamNeverLoops | src/assets/mod.rs:119-129 | with fewer than `NUM_FRAMES` buffers delivered the cursor is never looping |
| Assets.NewFrames | src/assets/mod.rs:58-96 | the new cursor is empty and streaming, its channel holds exactly the collected buffers, and `ready` has been set once, after all of those buffers were sent |
| Assets.FirstRoundCycles | src/assets/mod.rs:123-129 | when the cursor switches to looping, the `NUM_FRAMES` calls so far served the cache in order and the index wraps to 0 |
| Assets.LoopStepCycles | src/assets/mod.rs:134-139 | a looping call serves `completed[current]`, keeps call k serving `completed[k mod NUM_FRAMES]` and advances the index modulo `NUM_FRAMES` |
| FrameCycle.CallRepeatsFirstRound | src/assets/mod.rs:134-139 | once looping, call k returns the same texture as call k mod `NUM_FRAMES`, and the first round is the cache in order |
| FrameCycle.DistinctOccursOnce | src/assets/mod.rs:123 | a cache of distinct textures holds each of them once |
| FrameCycle.RoundIsRotation | src/assets/mod.rs:134-139 | any `NUM_FRAMES` consecutive looping calls serve the cache rotated to the first call's index |
| FrameCycle.SecondRoundRepeats | src/assets/mod.rs:134-139 | looping calls `NUM_FRAMES` apart serve the same texture |
| FrameCycle.TwoRoundsServeEachTwice | src/assets/mod.rs:123-139 | any 2 * `NUM_FRAMES` consecutive looping calls serve each cached texture exactly twice, the second round repeating the first; from a round boundary both rounds are the cache in order |
| App.Bounce | src/main.rs:188-207 | one step moves x by 3 in the current direction; moving right it turns exactly when x passes the upper bound, moving left exactly when x passes below the lower bound |
| App.BounceKeepsBand | src/main.rs:187-208 | one `Move` keeps the bounce invariant: moving right, x is at most area_max_x; moving left, at least area_min_x - sprite_width; and within one step of those bounds |
| App.BounceStaysInBand | src/main.rs:187-208 | any number of `Move` events keep the bounce invariant, so x stays in [lo - 3, hi + 3] |
| App.BounceOvershoots | src/main.rs:188-197 | moving right from the upper bound puts the window 3 pixels past it and turns it |
| App.MeasuredStartInBand | src/measurements.rs:118-136 | the measured start x lies in [lo, hi] and satisfies the bounce invariant; on Windows it equals the lower bounce bound |
| App.PullsAlternates | src/main.rs:215-242 | a redraw always pulls a frame off Windows; on Windows, a redraw pulls exactly when the one before it did not, as long as the counter does not wrap |
| App.PullsIn | src/main.rs:215-242 | n redraws pull at most n frames |
| App.NextFrameCount | src/main.rs:239-242 | the redraw counter is always below `usize::MAX` and counts modulo `usize::MAX` |
| App.PullsFrom | src/main.rs:215-242 | n Windows redraws from an even counter pull (n + 1) / 2 frames, from an odd one n / 2, while the counter does not wrap |
| App.HalfTheRedrawsPull | src/main.rs:215-242 | the first n Windows redraws pull a frame on every other redraw, starting with the first |
| App.WrapPullsTwice | src/main.rs:239-242 | where the counter wraps, two consecutive redraws both pull a frame |
| FrameCycle.CursorTwoRounds | src/assets/mod.rs:123-139 | for a looping cursor, any 2 * `NUM_FRAMES` consecutive calls serve each cached texture twice in a repeated order, and the next call serves the texture served `NUM_FRAMES` calls earlier |
| App.Coordinator.constructor | src/main.rs:131-140 | the coordinator starts moving right with a zero redraw counter, from a start position inside the bounce band |
| App.Coordinator.Handle | src/main.rs:184-252 | the event is recorded as handled; control flow is set to `Wait` and only a close request sets `Exit`; the reaction is `Closing` exactly for a close request; a looping cursor stays looping; `Move` bounces x by 3 and turns exactly when past a bound, changing nothing else; `Frame` only requests a redraw; a redraw calls `next()` once unless on Windows at an odd counter, where it calls it zero times; a `None` from it is fatal; a looping cursor never fails and draws `completed[current]`; a streaming pull is fatal exactly when the channel is drained or the backend rejects its head buffer, and otherwise draws the texture made from that buffer; a streaming pull consumes the head buffer, a drained channel stays drained, and the receiver stays in place while streaming; a successful pull adds exactly one served texture; on Windows the counter advances and wraps at `usize::MAX`; the bounce invariant and the cursor invariant are kept |
| App.Coordinator.MoveWindow | src/main.rs:187-209 | x moves 3 pixels in the current direction; moving right it turns exactly when x passes area_max_x, moving left exactly when x passes below area_min_x - sprite_width; y, the counter and the rest of the measurements are unchanged; the bounce invariant is kept |
| App.Coordinator.Redraw | src/main.rs:213-243 | `next()` is called once unless on Windows at an odd counter, where it is not called and the cursor is untouched; a `None` is fatal; otherwise the frame drawn is the one just served, and exactly one texture was served; a looping cursor never fails and draws the cached texture at its index; a streaming one is fatal exactly when the channel is drained or the backend rejects its head buffer, and otherwise draws the texture made from that buffer and appends it to its cache; the pull consumes the head buffer, a drained channel stays drained, and the receiver stays in place while streaming; on Windows the counter advances and wraps at `usize::MAX` |
| App.Coordinator.Run | src/main.rs:184-252 | starting from `Wait`, events are handled in order, the handled ones being exactly a prefix of the input; the run stops early only right after a `Fatal` or `Closing` reaction, and no earlier reaction is either; reaction k is `Closing` exactly when event k is a close request, so a close request ends the run; over a looping cursor no reaction is `Fatal`; the invariants hold throughout |
| App.Start | src/main.rs:39-140 | set-up fails exactly when there are no monitors; otherwise it gives a valid coordinator moving right from the measured position, with an empty streaming cursor on the given display whose channel holds the collected buffers, all of them delivered to it |

## Left out

- The timer threads and their busy wait on `ready` (src/main.rs:143-182). These are threads and sleeps. Their output is the arbitrary event sequence that `Coordinator.Run` takes.
- The parallelism of the decode stage (rayon) and the blocking of `recv`. The decode stage is a sequence filter-map; the channel is a FIFO queue. A receive is taken at the moment it returns.
- Channels.Channel.Send: a send after the receiver is dropped fails in the source, and the source ignores the result. The model always appends. Nothing reads the queue after the receiver is dropped.
- Image decoding, resizing and RGBA conversion: foreign library code. These are the parameters `load` and `convert`. The row flip in `RawImage2d::from_raw_rgba_reversed` is not modelled; a texture records the buffer it came from.
- OpenGL: display creation, vertex and index buffers, shaders, clearing and drawing, window placement and redraw requests. These are graphics and windowing calls; the model only reports them as `Reaction`s.
- Floating-point geometry: taskbar height on other platforms, sprite size and the sprite's y coordinate (src/measurements.rs:104-136). These are inputs.
- The Windows taskbar query (`SHAppBarMessage`): an OS call. The taskbar height is an input.
- Measurements.Measure: does not model i32 overflow of position + size or the u32-to-i32 cast of a monitor size. Integers here are unbounded; real monitor geometry stays far from the limits.
- Measurements.InitialX: does not model i32 overflow of `area_min_pos.0 - shark_size.0` (src/measurements.rs:121). Integers here are unbounded.
- App.Bounce: does not model i32 overflow of `shark_pos.0 += 3`, `shark_pos.0 -= 3` or `area_min_pos.0 - shark_size.0` (src/main.rs:189, 199, 205). The position stays within one step of the screen area, far from the i32 limits.
- App.NextFrameCount: fixes `usize::MAX` at its 64-bit value. A 32-bit target would wrap at 2^32 - 1, with the same parity behaviour.
- The Windows tray icon, window styles and menus (src/platform/windows): Win32 glue outside the core.
- The build script (src/build.rs): build-time configuration.
- `fatal` (src/misc.rs): message output and process exit. It appears only as the `Fatal` reaction and the `panicked` state.

=== FILE: app.dfy ===
/**
 * The event-loop closure of `main` (src/main.rs): one coordinator that owns
 * the window position, the bounce direction, the redraw counter and the frame
 * cursor, and updates them one event at a time.
 */
module App {
  import opened Wrappers
  import opened Misc
  import opened Measurements
  import opened Assets

  /** `usize::MAX` on a 64-bit target. */
  const USIZE_MAX: nat := 0xFFFF_FFFF_FFFF_FFFF

  /** Pixels the window moves per `Move` event. */
  const STEP: int := 3

  /** The events the closure tells apart; every other event is `Other`. */
  datatype Event = User(event: UserEvent) | RedrawRequested | CloseRequested | Other

  datatype ControlFlow = Wait | Exit

  /** What handling one event did outside the coordinator's own state. */
  datatype Reaction =
    | MovedTo(x: int, y: int)   // the window was placed at (x, y)
    | RedrawRequest             // a redraw was requested
    | Drew(frame: Texture)      // this frame was drawn
    | Skipped                   // a redraw that pulled no frame
    | Fatal                     // `next()` gave no frame and `unwrap` panicked
    | Closing                   // the loop was told to exit
    | Ignored

  /** Lower bound of the bounce: one sprite width left of the screen area. */
  function Lo(m: Measurements): int { m.areaMinPos.0 - m.sharkSize.0 }

  /** Upper bound of the bounce: the right edge of the screen area. */
  function Hi(m: Measurements): int { m.areaMaxPos.0 }

  /** The `Move` handler on (x, go_right): step in the current direction, turn once past a bound. */
  function Bounce(x: int, goRight: bool, lo: int, hi: int): (r: (int, bool))
    ensures r.0 == x + STEP || r.0 == x - STEP
    ensures goRight ==> r.0 > x    // moves in the current direction
    ensures !goRight ==> r.0 < x
    ensures goRight ==> (r.1 <==> r.0 <= hi)   // turns left exactly when past the upper bound
    ensures !goRight ==> (r.1 <==> r.0 < lo)   // turns right exactly when past the lower bound
  {
    if goRight then
      var x' := x + STEP;
      (x', !(x' > hi))
    else
      var x' := x - STEP;
      (x', x' < lo)
  }

  /** `n` consecutive `Move` events. */
  function BounceN(x: int, goRight: bool, lo: int, hi: int, n: nat): (int, bool)
    decreases n
  {
    if n == 0 then (x, goRight)
    else
      var (x', goRight') := Bounce(x, goRight, lo, hi);
      BounceN(x', goRight', lo, hi, n - 1)
  }

  /**
   * The bounce invariant: moving right, the window is at most at the upper
   * bound; moving left, at least at the lower one; and it never overshoots a
   * bound by more than one step.
   */
  predicate InBand(x: int, goRight: bool, lo: int, hi: int)
  {
    if goRight then lo - STEP <= x <= hi else lo <= x <= hi + STEP
  }

  /** One `Move` keeps the bounce invariant. */
  lemma BounceKeepsBand(x: int, goRight: bool, lo: int, hi: int)
    requires InBand(x, goRight, lo, hi)
    ensures var (x', goRight') := Bounce(x, goRight, lo, hi);
            InBand(x', goRight', lo, hi)
  {
  }

  /**
   * Any number of `Move` events keep the bounce invariant, so the window
   * always stays within one step of [lo, hi].
   */
  lemma {:induction false} BounceStaysInBand(x: int, goRight: bool, lo: int, hi: int, n: nat)
    requires InBand(x, goRight, lo, hi)
    ensures var (x', goRight') := BounceN(x, goRight, lo, hi, n);
            InBand(x', goRight', lo, hi) && lo - STEP <= x' <= hi + STEP
    decreases n
  {
    if n > 0 {
      var (x1, goRight1) := Bounce(x, goRight, lo, hi);
      BounceKeepsBand(x, goRight, lo, hi);
      BounceStaysInBand(x1, goRight1, lo, hi, n - 1);
    }
  }

  /** The bounce does overshoot: moving right from the upper bound puts the window one step past it. */
  lemma BounceOvershoots(lo: int, hi: int)
    requires lo <= hi
    ensures InBand(hi, true, lo, hi) && Bounce(hi, true, lo, hi) == (hi + STEP, false)
  {
  }

  /** The measured start position satisfies the bounce invariant when the sprite width is not negative. */
  lemma MeasuredStartInBand(ms: seq<Monitor>, windows: bool, taskbarHeight: int, sharkSize: (int, int), sharkY: int)
    requires ms != [] && 0 <= sharkSize.0
    ensures var m := Measure(ms, windows, taskbarHeight, sharkSize, sharkY).value;
            Lo(m) <= m.sharkPos.0 <= Hi(m) && InBand(m.sharkPos.0, true, Lo(m), Hi(m))
            && (windows ==> m.sharkPos.0 == Lo(m))
  {
  }

  /** Whether a redraw pulls a frame: always, except on Windows at an odd `frame_count`. */
  predicate Pulls(windows: bool, frameCount: nat)
  {
    !windows || frameCount % 2 == 0
  }

  /**
   * Every redraw pulls off Windows; on Windows, consecutive redraws alternate
   * between pulling and not while the counter does not wrap.
   */
  lemma PullsAlternates(c: nat)
    requires c < USIZE_MAX
    ensures Pulls(false, c)
    ensures c + 1 < USIZE_MAX ==> Pulls(true, NextFrameCount(c)) == !Pulls(true, c)
  {
  }

  /** The Windows redraw counter: `frame_count += 1`, back to 0 on reaching `usize::MAX`. */
  function NextFrameCount(c: nat): (r: nat)
    requires c < USIZE_MAX
    ensures r < USIZE_MAX && r == (c + 1) % USIZE_MAX
  {
    var c' := c + 1;
    if c' == USIZE_MAX then 0 else c'
  }

  /** How many frames `n` consecutive Windows redraws pull, from counter value `c`. */
  function PullsIn(c: nat, n: nat): (r: nat)
    requires c < USIZE_MAX
    ensures r <= n
    decreases n
  {
    if n == 0 then 0
    else (if Pulls(true, c) then 1 else 0) + PullsIn(NextFrameCount(c), n - 1)
  }

  lemma {:induction false} PullsFrom(c: nat, n: nat)
    requires c < USIZE_MAX && c + n <= USIZE_MAX
    ensures PullsIn(c, n) == if c % 2 == 0 then (n + 1) / 2 else n / 2
    decreases n
  {
    if n > 0 {
      if c + 1 < USIZE_MAX {
        assert NextFrameCount(c) == c + 1;
        PullsFrom(c + 1, n - 1);
      } else {
        assert n == 1;
      }
    }
  }

  /** On Windows, the first n redraws (n up to `usize::MAX`) pull one frame for every other redraw, starting with the first. */
  lemma HalfTheRedrawsPull(n: nat)
    requires n <= USIZE_MAX
    ensures PullsIn(0, n) == (n + 1) / 2
  {
    PullsFrom(0, n);
  }

  /** Where the counter wraps, the alternation breaks: the redraws at `usize::MAX - 1` and at 0 both pull. */
  lemma WrapPullsTwice()
    ensures Pulls(true, USIZE_MAX - 1) && NextFrameCount(USIZE_MAX - 1) == 0 && Pulls(true, 0)
  {
  }

  class Coordinator {
    /** Whether the program was built for Windows (`cfg(platform_windows)`). */
    const windows: bool
    const frames: Frames
    var measurements: Measurements
    var goRight: bool
    var frameCount: nat
    var controlFlow: ControlFlow
    /** True once a redraw found no frame and the closure panicked. */
    var panicked: bool
    /** Every event handed to the closure so far, in order. */
    ghost var handled: seq<Event>

    ghost predicate Valid()
      reads this, frames, frames.ChannelSet()
    {
      && frames.Valid()
      && frameCount < USIZE_MAX
      && (!windows ==> frameCount == 0)
      && InBand(measurements.sharkPos.0, goRight, Lo(measurements), Hi(measurements))
    }

    /** The state `main` sets up before handing the closure to the event loop. */
    constructor (windows: bool, measurements: Measurements, frames: Frames)
      requires frames.Valid()
      requires InBand(measurements.sharkPos.0, true, Lo(measurements), Hi(measurements))
      ensures Valid()
      ensures this.windows == windows && this.measurements == measurements && this.frames == frames
      ensures goRight && frameCount == 0 && controlFlow == Wait && !panicked && handled == []
    {
      this.windows := windows;
      this.measurements := measurements;
      this.frames := frames;
      goRight := true;
      frameCount := 0;
      controlFlow := Wait;
      panicked := false;
      handled := [];
    }

    /** One call of the event-loop closure. */
    method Handle(e: Event) returns (out: Reaction)
      requires Valid() && !panicked
      modifies this, frames, frames.ChannelSet()
      ensures Valid()
      ensures controlFlow == if e.CloseRequested? then Exit else Wait
      ensures out == Closing <==> e.CloseRequested?
      ensures handled == old(handled) + [e]
      ensures old(frames.full) ==> frames.full
      ensures frames.receiver == old(frames.receiver) || frames.receiver.None?
      ensures !frames.full ==> frames.receiver == old(frames.receiver)
      // Move: bounce x, nothing else changes
      ensures e == User(Move) ==>
        && (measurements.sharkPos.0, goRight)
           == Bounce(old(measurements.sharkPos.0), old(goRight), Lo(old(measurements)), Hi(old(measurements)))
        && measurements == old(measurements).(sharkPos := (measurements.sharkPos.0, old(measurements.sharkPos.1)))
        && frameCount == old(frameCount) && !panicked
        && unchanged(frames) && unchanged(frames.ChannelSet())
        && out == MovedTo(measurements.sharkPos.0, measurements.sharkPos.1)
      // Frame, CloseRequested and any other event change no state
      ensures e != User(Move) && !e.RedrawRequested? ==>
        && measurements == old(measurements) && goRight == old(goRight) && frameCount == old(frameCount)
        && !panicked && unchanged(frames) && unchanged(frames.ChannelSet())
        && out == (if e == User(Frame) then RedrawRequest else if e.CloseRequested? then Closing else Ignored)
      // RedrawRequested: pull one frame or none, then count the redraw on Windows
      ensures e.RedrawRequested? ==>
        && measurements == old(measurements) && goRight == old(goRight)
        && frames.calls == old(frames.calls) + (if Pulls(windows, old(frameCount)) then 1 else 0)
        && (!Pulls(windows, old(frameCount)) ==>
              unchanged(frames) && unchanged(frames.ChannelSet()) && !panicked && out == Skipped)
        && (Pulls(windows, old(frameCount)) ==>
              && (panicked <==> frames.served == old(frames.served))
              && (panicked ==> out == Fatal)
              && (!panicked ==> |frames.served| == |old(frames.served)| + 1 && out == Drew(frames.served[|frames.served| - 1])))
        && (Pulls(windows, old(frameCount)) && !panicked ==>
              |frames.served| > 0 && frames.served == old(frames.served) + [frames.served[|frames.served| - 1]])
        && (Pulls(windows, old(frameCount)) && old(frames.full) ==>
              !panicked && out == Drew(old(frames.completed)[old(frames.current)]))
        && (Pulls(windows, old(frameCount)) && !old(frames.full) && !panicked ==>
              frames.completed == old(frames.completed) + [frames.served[|frames.served| - 1]])
        && (Pulls(windows, old(frameCount)) && !old(frames.full) ==>
              (panicked <==> old(frames.Pending()) == [] || !frames.display.accepts(old(frames.Pending())[0])))
        && (Pulls(windows, old(frameCount)) && !old(frames.full) && !panicked ==>
              out.Drew? && out.frame.source == old(frames.Pending())[0])
        && (Pulls(windows, old(frameCount)) && !old(frames.full) && old(frames.Pending()) != [] ==>
              old(frames.receiver).value.queue == old(frames.Pending())[1..])
        && (Pulls(windows, old(frameCount)) && !old(frames.full) && old(frames.Pending()) == [] ==>
              frames.Pending() == [])
        && frameCount == (if windows && !panicked then NextFrameCount(old(frameCount)) else old(frameCount))
    {
      controlFlow := Wait;
      handled := handled + [e];
      match e {
        case User(Move) =>
          out := MoveWindow();
        case User(Frame) =>
          out := RedrawRequest;
        case RedrawRequested =>
          out := Redraw();
        case CloseRequested =>
          controlFlow := Exit;
          out := Closing;
        case Other =>
          out := Ignored;
      }
    }

    /** The `Move` arm: step x in the current direction and turn once past the bound on that side. */
    method MoveWindow() returns (out: Reaction)
      requires Valid() && !panicked
      modifies this
      ensures Valid()
      ensures (measurements.sharkPos.0, goRight)
              == Bounce(old(measurements.sharkPos.0), old(goRight), Lo(old(measurements)), Hi(old(measurements)))
      ensures measurements == old(measurements).(sharkPos := (measurements.sharkPos.0, old(measurements.sharkPos.1)))
      ensures frameCount == old(frameCount) && controlFlow == old(controlFlow) && !panicked
      ensures handled == old(handled)
      ensures out == MovedTo(measurements.sharkPos.0, measurements.sharkPos.1)
    {
      var x := measurements.sharkPos.0;
      if goRight {
        x := x + STEP;
        measurements := measurements.(sharkPos := (x, measurements.sharkPos.1));
        var bound := measurements.areaMaxPos.0;
        if x > bound {
          goRight := false;
        }
      } else {
        x := x - STEP;
        measurements := measurements.(sharkPos := (x, measurements.sharkPos.1));
        var bound := measurements.areaMinPos.0 - measurements.sharkSize.0;
        if x < bound {
          goRight := true;
        }
      }
      out := MovedTo(measurements.sharkPos.0, measurements.sharkPos.1);
    }

    /** The `RedrawRequested` arm: pull and draw one frame unless throttled, then count the redraw on Windows. */
    method Redraw() returns (out: Reaction)
      requires Valid() && !panicked
      modifies this, frames, frames.ChannelSet()
      ensures Valid()
      ensures frames.receiver == old(frames.receiver) || frames.receiver.None?
      ensures measurements == old(measurements) && goRight == old(goRight) && controlFlow == old(controlFlow)
      ensures handled == old(handled)
      ensures frames.calls == old(frames.calls) + (if Pulls(windows, old(frameCount)) then 1 else 0)
      ensures !Pulls(windows, old(frameCount)) ==>
                unchanged(frames) && unchanged(frames.ChannelSet()) && !panicked && out == Skipped
      ensures Pulls(windows, old(frameCount)) ==>
                && (panicked <==> frames.served == old(frames.served))
                && (panicked ==> out == Fatal)
                && (!panicked ==> |frames.served| == |old(frames.served)| + 1
                                  && out == Drew(frames.served[|frames.served| - 1]))
      ensures Pulls(windows, old(frameCount)) && !panicked ==>
                |frames.served| > 0 && frames.served == old(frames.served) + [frames.served[|frames.served| - 1]]
      ensures Pulls(windows, old(frameCount)) && old(frames.full) ==>
                !panicked && out == Drew(old(frames.completed)[old(frames.current)])
      ensures Pulls(windows, old(frameCount)) && !old(frames.full) && !panicked ==>
                frames.completed == old(frames.completed) + [frames.served[|frames.served| - 1]]
      // streaming: fatal exactly when the channel is drained or the backend rejects its head buffer
      ensures Pulls(windows, old(frameCount)) && !old(frames.full) ==>
                (panicked <==> old(frames.Pending()) == [] || !frames.display.accepts(old(frames.Pending())[0]))
      ensures Pulls(windows, old(frameCount)) && !old(frames.full) && !panicked ==>
                out.Drew? && out.frame.source == old(frames.Pending())[0]
      // streaming: the head buffer is consumed, a drained channel stays drained, the receiver stays
      ensures Pulls(windows, old(frameCount)) && !old(frames.full) && old(frames.Pending()) != [] ==>
                old(frames.receiver).value.queue == old(frames.Pending())[1..]
      ensures Pulls(windows, old(frameCount)) && !old(frames.full) && old(frames.Pending()) == [] ==>
                frames.Pending() == []
      ensures !frames.full ==> frames.receiver == old(frames.receiver)
      ensures frameCount == if windows && !panicked then NextFrameCount(old(frameCount)) else old(frameCount)
    {
      out := Skipped;
      if !windows || frameCount % 2 == 0 {
        var frame := frames.Next();
        match frame {
          case Some(t) => out := Drew(t);
          case None =>
            panicked := true;
            return Fatal;
        }
      }
      if windows {
        frameCount := frameCount + 1;
        if frameCount == USIZE_MAX {
          frameCount := 0;
        }
      }
    }

    /**
     * The event loop: hand the events to the closure in order until it asks
     * to exit or panics. Returns what each handled event did.
     */
    method Run(events: seq<Event>) returns (reactions: seq<Reaction>)
      requires Valid() && !panicked && controlFlow == Wait
      modifies this, frames, frames.ChannelSet()
      ensures Valid()
      ensures |reactions| <= |events|
      ensures handled == old(handled) + events[..|reactions|]
      ensures |reactions| < |events| ==>
                |reactions| > 0 && (reactions[|reactions| - 1] == Fatal || reactions[|reactions| - 1] == Closing)
      ensures forall k :: 0 <= k < |reactions| - 1 ==> reactions[k] != Fatal && reactions[k] != Closing
      ensures forall k :: 0 <= k < |reactions| ==> (reactions[k] == Closing <==> events[k] == CloseRequested)
      ensures old(frames.full) ==> Fatal !in reactions
      ensures frames.receiver == old(frames.receiver) || frames.receiver.None?
    {
      reactions := [];
      var i := 0;
      while i < |events| && !panicked && controlFlow != Exit
        invariant 0 <= i <= |events| && |reactions| == i
        invariant Valid()
        invariant frames.receiver == old(frames.receiver) || frames.receiver.None?
        invariant forall k :: 0 <= k < i - 1 ==> reactions[k] != Fatal && reactions[k] != Closing
        invariant handled == old(handled) + events[..i]
        invariant forall k :: 0 <= k < i ==> (reactions[k] == Closing <==> events[k] == CloseRequested)
        invariant old(frames.full) ==> frames.full && Fatal !in reactions
        invariant i == 0 ==> !panicked && controlFlow == Wait
        invariant i > 0 ==> (panicked || controlFlow == Exit ==> reactions[i - 1] == Fatal || reactions[i - 1] == Closing)
        invariant i > 0 && reactions[i - 1] == Fatal ==> panicked
        invariant i > 0 && reactions[i - 1] == Closing ==> controlFlow == Exit
      {
        var out := Handle(events[i]);
        reactions := reactions + [out];
        i := i + 1;
      }
    }
  }

  /**
   * The set-up in `main`: measure the screens (no monitor is fatal), create
   * the frame cursor with its readiness flag, and the coordinator's initial
   * state. The window's own size is the sprite size, which `display` carries.
   */
  method Start(monitors: seq<Monitor>, windows: bool, taskbarHeight: int, sharkSize: (int, int), sharkY: int,
               display: Display, frameSet: seq<Encoded>,
               load: Encoded -> Option<Image>, convert: (Image, nat, nat) -> RawBuffer)
    returns (r: Result<Coordinator, Error>)
    requires 0 <= sharkSize.0 && |frameSet| == NUM_FRAMES
    ensures r.Failure? <==> monitors == []
    ensures r.Success? ==>
      var c := r.value;
      && fresh(c) && fresh(c.frames) && c.Valid() && c.windows == windows
      && c.measurements == Measure(monitors, windows, taskbarHeight, sharkSize, sharkY).value
      && c.goRight && c.frameCount == 0 && c.controlFlow == Wait && !c.panicked && c.handled == []
      && c.frames.display == display && c.frames.delivered == |c.frames.Pending()|
      && c.frames.completed == [] && !c.frames.full && c.frames.current == 0
      && c.frames.Pending() == Collect(frameSet, load, convert, display.width, display.height)
  {
    var measured := Measure(monitors, windows, taskbarHeight, sharkSize, sharkY);
    match measured {
      case Failure(err) =>
        r := Failure(err);
      case Success(m) =>
        var ready := new ReadyFlag();
        var frames := NewFrames(display, ready, frameSet, load, convert);
        MeasuredStartInBand(monitors, windows, taskbarHeight, sharkSize, sharkY);
        var c := new Coordinator(windows, m, frames);
        r := Success(c);
    }
  }
}

=== FILE: assets.dfy ===
/**
 * The animation frames (src/assets/mod.rs): the decoding task that turns the
 * bundled PNG frames into raw RGBA buffers and sends them down a channel, and
 * the frame cursor `Frames`, which first turns each received buffer into a
 * texture and caches it (streaming), then serves the cache in a cycle of
 * `NUM_FRAMES` forever (looping).
 */
module Assets {
  import opened Wrappers
  import opened Channels

  /** Number of frames bundled with the program, and the length of the animation cycle. */
  const NUM_FRAMES: nat := 22

  type Bytes = seq<bv8>

  /** An encoded image of the bundled frame set. */
  type Encoded = Bytes

  /** Raw RGBA pixels of one frame, resized to the window. */
  type RawBuffer = Bytes

  /** A decoded image. */
  datatype Image = Image(width: nat, height: nat, pixels: Bytes)

  /**
   * The display the textures are created on: its inner size, and whether the
   * graphics backend accepts a buffer as a texture of that size.
   */
  datatype Display = Display(width: nat, height: nat, accepts: RawBuffer -> bool)

  /** No element occurs twice. */
  predicate Distinct<T(==)>(s: seq<T>)
  {
    forall i, j :: 0 <= i < j < |s| ==> s[i] != s[j]
  }

  /** Call number k of a looping cursor served `cache[k mod NUM_FRAMES]`. */
  predicate Cycles<T(==)>(served: seq<T>, cache: seq<T>)
  {
    |cache| == NUM_FRAMES && forall k :: 0 <= k < |served| ==> served[k] == cache[k % NUM_FRAMES]
  }

  /** The first round: a cache of `NUM_FRAMES` served once in order satisfies `Cycles`. */
  lemma FirstRoundCycles<T>(cache: seq<T>)
    requires |cache| == NUM_FRAMES
    ensures Cycles(cache, cache) && |cache| % NUM_FRAMES == 0
  {
    forall k | 0 <= k < |cache|
      ensures cache[k] == cache[k % NUM_FRAMES]
    {
      assert k % NUM_FRAMES == k;
    }
  }

  /** One looping call: serving `cache[current]` keeps `Cycles` and advances the index modulo `NUM_FRAMES`. */
  lemma LoopStepCycles<T>(served: seq<T>, cache: seq<T>, current: nat)
    requires Cycles(served, cache) && current < NUM_FRAMES && |served| % NUM_FRAMES == current
    ensures Cycles(served + [cache[current]], cache)
    ensures (|served| + 1) % NUM_FRAMES == (current + 1) % NUM_FRAMES
  {
  }

  /** Appending an element that is not yet present keeps a sequence free of repetitions. */
  lemma DistinctAppend<T>(s: seq<T>, x: T)
    requires Distinct(s) && x !in s
    ensures Distinct(s + [x])
  {
  }

  // ---------------------------------------------------------------------------
  // The decoding task

  /** The buffer that frame `f` becomes, or `None` when it does not decode. */
  function Decoded(f: Encoded, load: Encoded -> Option<Image>, convert: (Image, nat, nat) -> RawBuffer,
                   width: nat, height: nat): (r: Option<RawBuffer>)
    ensures r.Some? <==> load(f).Some?
  {
    match load(f)
    case Some(image) => Some(convert(image, width, height))
    case None => None
  }

  /**
   * The decode stage: every frame is decoded, the failures are dropped, the
   * rest are resized to `width` by `height`, converted to raw RGBA and
   * collected in frame-set order. `load` stands for the image decoder and
   * `convert` for resizing and conversion, which cannot fail.
   */
  function Collect(frameSet: seq<Encoded>, load: Encoded -> Option<Image>, convert: (Image, nat, nat) -> RawBuffer,
                   width: nat, height: nat): (r: seq<RawBuffer>)
    ensures |r| <= |frameSet|
  {
    if frameSet == [] then []
    else
      var last := |frameSet| - 1;
      Collect(frameSet[..last], load, convert, width, height)
        + match Decoded(frameSet[last], load, convert, width, height)
          case Some(raw) => [raw]
          case None => []
  }

  /**
   * Reference definition of what survives the decode stage: the positions of
   * the frames that decode, in increasing order.
   */
  function Survivors(frameSet: seq<Encoded>, load: Encoded -> Option<Image>): (s: seq<nat>)
    ensures forall k :: 0 <= k < |s| ==> s[k] < |frameSet| && load(frameSet[s[k]]).Some?
    ensures forall k, l :: 0 <= k < l < |s| ==> s[k] < s[l]
    ensures forall i :: 0 <= i < |frameSet| && load(frameSet[i]).Some? ==> i in s
  {
    if frameSet == [] then []
    else
      var last := |frameSet| - 1;
      var s := Survivors(frameSet[..last], load);
      assert forall k :: 0 <= k < |s| ==> frameSet[..last][s[k]] == frameSet[s[k]];
      s + if load(frameSet[last]).Some? then [last] else []
  }

  /**
   * The buffers collected are exactly the frames that decode, converted, in
   * frame-set order: the k-th buffer comes from the k-th surviving frame.
   */
  lemma {:induction false} CollectKeepsExactlyTheDecoded(frameSet: seq<Encoded>, load: Encoded -> Option<Image>,
                                                         convert: (Image, nat, nat) -> RawBuffer, width: nat, height: nat)
    ensures var r := Collect(frameSet, load, convert, width, height);
            var s := Survivors(frameSet, load);
            |r| == |s| && forall k :: 0 <= k < |s| ==> r[k] == convert(load(frameSet[s[k]]).value, width, height)
  {
    if frameSet != [] {
      var last := |frameSet| - 1;
      var prefix := frameSet[..last];
      CollectKeepsExactlyTheDecoded(prefix, load, convert, width, height);
      var r', s' := Collect(prefix, load, convert, width, height), Survivors(prefix, load);
      var r, s := Collect(frameSet, load, convert, width, height), Survivors(frameSet, load);
      assert r == r' + (if load(frameSet[last]).Some? then [convert(load(frameSet[last]).value, width, height)] else []);
      assert s == s' + (if load(frameSet[last]).Some? then [last] else []);
      forall k | 0 <= k < |s|
        ensures r[k] == convert(load(frameSet[s[k]]).value, width, height)
      {
        if k < |s'| {
          assert r[k] == r'[k] && s[k] == s'[k];
          assert prefix[s'[k]] == frameSet[s'[k]];
        }
      }
    }
  }

  /** The decode stage preserves order: collecting two runs of frames is collecting each and concatenating. */
  lemma {:induction false} CollectAppend(a: seq<Encoded>, b: seq<Encoded>, load: Encoded -> Option<Image>,
                                         convert: (Image, nat, nat) -> RawBuffer, width: nat, height: nat)
    ensures Collect(a + b, load, convert, width, height)
         == Collect(a, load, convert, width, height) + Collect(b, load, convert, width, height)
    decreases |b|
  {
    if b == [] {
      assert a + b == a;
    } else {
      var last := |b| - 1;
      assert (a + b)[..|a + b| - 1] == a + b[..last];
      assert (a + b)[|a + b| - 1] == b[last];
      CollectAppend(a, b[..last], load, convert, width, height);
    }
  }

  /** When every frame decodes nothing is dropped: one buffer per frame, frame i giving buffer i. */
  lemma {:induction false} CollectAllDecoded(frameSet: seq<Encoded>, load: Encoded -> Option<Image>,
                                             convert: (Image, nat, nat) -> RawBuffer, width: nat, height: nat)
    requires forall i :: 0 <= i < |frameSet| ==> load(frameSet[i]).Some?
    ensures var r := Collect(frameSet, load, convert, width, height);
            |r| == |frameSet| && forall i :: 0 <= i < |r| ==> r[i] == convert(load(frameSet[i]).value, width, height)
  {
    if frameSet != [] {
      var last := |frameSet| - 1;
      var prefix := frameSet[..last];
      assert forall i :: 0 <= i < |prefix| ==> prefix[i] == frameSet[i];
      CollectAllDecoded(prefix, load, convert, width, height);
    }
  }

  /** The readiness flag shared with the timer threads (`Arc<AtomicBool>`). */
  class ReadyFlag {
    var value: bool
    /** How many times `true` has been stored. */
    ghost var stores: nat
    /** How many buffers the channel had been sent at the latest store. */
    ghost var sentWhenStored: nat

    constructor ()
      ensures !value && stores == 0 && sentWhenStored == 0
    {
      value := false;
      stores := 0;
      sentWhenStored := 0;
    }

    /** `ready.store(true, Ordering::Relaxed)`, noting how far the channel `ch` had been fed at that moment. */
    method Store(ghost ch: Channel<RawBuffer>)
      modifies this
      ensures value && stores == old(stores) + 1 && sentWhenStored == ch.sent
    {
      value := true;
      stores := stores + 1;
      sentWhenStored := ch.sent;
    }
  }

  /**
   * The task spawned by `Frames::new`: collect the decoded buffers, send them
   * one by one in order, set `ready` once every one has been sent, and drop
   * the sender.
   */
  method Produce(frameSet: seq<Encoded>, load: Encoded -> Option<Image>, convert: (Image, nat, nat) -> RawBuffer,
                 width: nat, height: nat, sender: Channel<RawBuffer>, ready: ReadyFlag)
    requires sender.senderAlive && !ready.value
    modifies sender, ready
    ensures sender.queue == old(sender.queue) + Collect(frameSet, load, convert, width, height)
    ensures sender.sent == old(sender.sent) + |Collect(frameSet, load, convert, width, height)|
    ensures !sender.senderAlive
    ensures ready.value && ready.stores == old(ready.stores) + 1
    // the flag is stored after the last buffer was sent
    ensures ready.sentWhenStored == sender.sent
  {
    var raws := Collect(frameSet, load, convert, width, height);
    var i := 0;
    while i < |raws|
      invariant 0 <= i <= |raws|
      invariant sender.queue == old(sender.queue) + raws[..i]
      invariant sender.sent == old(sender.sent) + i
      invariant sender.senderAlive
      invariant !ready.value && ready.stores == old(ready.stores)
    {
      sender.Send(raws[i]);
      i := i + 1;
    }
    ready.Store(sender);
    sender.DropSender();
  }

  // ---------------------------------------------------------------------------
  // The frame cursor

  /** `Rc<SrgbTexture2d>`: a texture on the display, shared by reference. */
  class Texture {
    /** The buffer the texture was made from. */
    const source: RawBuffer
    const width: nat
    const height: nat

    constructor (source: RawBuffer, width: nat, height: nat)
      ensures this.source == source && this.width == width && this.height == height
    {
      this.source := source;
      this.width := width;
      this.height := height;
    }
  }

  /** `SrgbTexture2d::new` on a raw image of the display's size: fails when the backend rejects the buffer. */
  method CreateTexture(display: Display, raw: RawBuffer) returns (t: Option<Texture>)
    ensures t.Some? <==> display.accepts(raw)
    ensures t.Some? ==> fresh(t.value) && t.value.source == raw
                        && t.value.width == display.width && t.value.height == display.height
  {
    if display.accepts(raw) {
      var texture := new Texture(raw, display.width, display.height);
      t := Some(texture);
    } else {
      t := None;
    }
  }

  class Frames {
    /** The textures made so far, in the order they were received. */
    var completed: seq<Texture>
    /** Index of the next frame to serve. */
    var current: nat
    /** True once every frame is cached (looping mode). */
    var full: bool
    /** The receiving end of the channel, dropped when switching to looping mode. */
    var receiver: Option<Channel<RawBuffer>>
    const display: Display

    /** Every texture `next` has returned so far, in order. */
    ghost var served: seq<Texture>
    /** How many times `next` has been called. */
    ghost var calls: nat
    /** How many buffers the decoding task sent into the channel. */
    ghost const delivered: nat

    ghost function ChannelSet(): set<object>
      reads this
    {
      if receiver.Some? then {receiver.value} else {}
    }

    /** The buffers still waiting in the channel. */
    ghost function Pending(): seq<RawBuffer>
      reads this, ChannelSet()
    {
      if receiver.Some? then receiver.value.queue else []
    }

    /**
     * While streaming, the cache holds exactly the `current` textures served so
     * far; once looping, it holds `NUM_FRAMES` textures, the channel is gone
     * and call k served `completed[k mod NUM_FRAMES]`. Cached textures are
     * distinct objects. The decoding task has finished (its sender is
     * dropped), and the cache can never hold more textures than it delivered.
     */
    ghost predicate Valid()
      reads this, ChannelSet()
    {
      && current < NUM_FRAMES
      && (receiver.Some? ==> !receiver.value.senderAlive)
      && Distinct(completed)
      && (!full ==> |completed| == current && served == completed && |completed| + |Pending()| <= delivered)
      && (full ==> receiver.None? && NUM_FRAMES <= delivered && NUM_FRAMES <= |served|
                   && |served| % NUM_FRAMES == current && Cycles(served, completed))
    }

    /** The value built at the end of `Frames::new`, over a channel whose sender has finished. */
    constructor (display: Display, receiver: Channel<RawBuffer>)
      requires !receiver.senderAlive
      ensures Valid()
      ensures completed == [] && current == 0 && !full && this.receiver == Some(receiver)
      ensures this.display == display && Pending() == receiver.queue
      ensures served == [] && calls == 0 && delivered == |receiver.queue|
    {
      completed := [];
      current := 0;
      this.display := display;
      full := false;
      this.receiver := Some(receiver);
      served := [];
      calls := 0;
      delivered := |receiver.queue|;
    }

    /**
     * With fewer than `NUM_FRAMES` buffers delivered the cursor never loops:
     * it stays streaming, and every buffer it received or still can receive
     * was one of those delivered.
     */
    lemma ShortStreamNeverLoops()
      requires Valid() && delivered < NUM_FRAMES
      ensures !full && |completed| + |Pending()| <= delivered
    {
    }

    /** `Iterator::next`. */
    method Next() returns (r: Option<Texture>)
      requires Valid()
      modifies this, ChannelSet()
      ensures Valid()
      ensures calls == old(calls) + 1
      ensures served == if r.Some? then old(served) + [r.value] else old(served)
      ensures receiver == old(receiver) || receiver.None?
      // looping: serve the cache in a cycle
      ensures old(full) ==>
        && full && r == Some(old(completed)[old(current)]) && completed == old(completed)
        && current == (old(current) + 1) % NUM_FRAMES && receiver == old(receiver)
      // streaming, channel disconnected and drained (or gone): no frame, nothing changes
      ensures !old(full) && old(Pending()) == [] ==>
        && r.None? && completed == old(completed) && current == old(current) && !full && receiver == old(receiver)
        && Pending() == []
      // streaming, a buffer arrives: it is consumed, and turned into a new cached texture unless the backend rejects it
      ensures !old(full) && old(Pending()) != [] ==>
        && old(receiver).value.queue == old(Pending())[1..]
        && (r.Some? <==> display.accepts(old(Pending())[0]))
        && (r.None? ==> completed == old(completed) && current == old(current) && !full && receiver == old(receiver))
        && (r.Some? ==>
              && fresh(r.value) && r.value.source == old(Pending())[0]
              && completed == old(completed) + [r.value] && r.value == completed[old(current)]
              && (old(current) + 1 < NUM_FRAMES ==> current == old(current) + 1 && !full && receiver == old(receiver))
              && (old(current) + 1 == NUM_FRAMES ==> current == 0 && full && receiver.None?))
    {
      calls := calls + 1;
      if !full {
        var index := current;
        var value: Texture;
        match receiver {
          case Some(rx) =>
            var received := rx.Recv();
            match received {
              case Some(raw) =>
                var texture := CreateTexture(display, raw);
                match texture {
                  case Some(t) => value := t;
                  case None => return None;
                }
              case None => return None;
            }
          case None => return None;
        }
        assert value !in completed;
        DistinctAppend(completed, value);
        completed := completed + [value];
        served := served + [value];
        current := current + 1;
        if current >= NUM_FRAMES {
          FirstRoundCycles(completed);
          current := 0;
          full := true;
          receiver := None;
        }
        r := if index < |completed| then Some(completed[index]) else None;
      } else {
        var value := completed[current];
        LoopStepCycles(served, completed, current);
        current := current + 1;
        if current >= NUM_FRAMES {
          current := 0;
        }
        served := served + [value];
        r := Some(value);
      }
    }
  }

  /**
   * `Frames::new`: open the channel, run the decoding task and return an empty
   * cursor reading from it. The task runs to completion here; because `recv`
   * blocks until the next buffer or the disconnection, what the cursor
   * receives does not depend on how the task and the cursor interleave.
   */
  method NewFrames(display: Display, ready: ReadyFlag, frameSet: seq<Encoded>,
                   load: Encoded -> Option<Image>, convert: (Image, nat, nat) -> RawBuffer) returns (frames: Frames)
    requires |frameSet| == NUM_FRAMES && !ready.value
    modifies ready
    ensures fresh(frames) && frames.Valid()
    ensures frames.display == display && frames.completed == [] && frames.current == 0 && !frames.full
    ensures frames.receiver.Some? && fresh(frames.receiver.value)
    ensures frames.Pending() == Collect(frameSet, load, convert, display.width, display.height)
    ensures frames.delivered == |frames.Pending()| && frames.served == [] && frames.calls == 0
    ensures ready.value && ready.stores == old(ready.stores) + 1
    ensures ready.sentWhenStored == |frames.Pending()|
  {
    var channel := new Channel<RawBuffer>();
    Produce(frameSet, load, convert, display.width, display.height, channel, ready);
    frames := new Frames(display, channel);
  }
}

=== FILE: channel.dfy ===
/**
 * The unbounded, ordered channel that carries decoded pixel buffers from the
 * decoding task to the frame cursor (a crossbeam `unbounded` channel with
 * one sender and one receiver).
 */
module Channels {
  import opened Wrappers

  class Channel<T> {
    /** Items sent and not yet received, oldest first. */
    var queue: seq<T>
    /** False once the only sender has been dropped (the channel is disconnected). */
    var senderAlive: bool
    /** How many items have ever been sent. */
    ghost var sent: nat

    constructor ()
      ensures queue == [] && senderAlive && sent == 0
    {
      queue := [];
      senderAlive := true;
      sent := 0;
    }

    /** `sender.send(x)`: appends at the back of the queue. */
    method Send(x: T)
      modifies this
      ensures queue == old(queue) + [x]
      ensures senderAlive == old(senderAlive) && sent == old(sent) + 1
    {
      queue := queue + [x];
      sent := sent + 1;
    }

    /** The sender goes out of scope: the channel becomes disconnected. */
    method DropSender()
      modifies this
      ensures !senderAlive
      ensures queue == old(queue) && sent == old(sent)
    {
      senderAlive := false;
    }

    /**
     * `receiver.recv()`. The real call blocks while the queue is empty and a
     * sender is alive; it is modelled at the moment it returns, which is why
     * it requires that one of the two has changed. It then yields the oldest
     * item, or an error once the queue is empty and disconnected.
     */
    method Recv() returns (r: Option<T>)
      requires queue != [] || !senderAlive
      modifies this
      ensures old(queue) == [] ==> r.None? && queue == []
      ensures old(queue) != [] ==> r == Some(old(queue)[0]) && queue == old(queue)[1..]
      ensures senderAlive == old(senderAlive) && sent == old(sent)
    {
      if queue == [] {
        r := None;
      } else {
        r := Some(queue[0]);
        queue := queue[1..];
      }
    }
  }
}

=== FILE: frame_cycle.dfy ===
/**
 * What a looping frame cursor serves over many calls (src/assets/mod.rs,
 * `Frames::next`): stated about the history of served textures, which
 * `Frames.Valid` ties to the cache by `Cycles`.
 */
module FrameCycle {
  import opened Assets

  /** From the NUM_FRAMES-th call on, call k serves the same texture as call k mod NUM_FRAMES. */
  lemma CallRepeatsFirstRound<T>(served: seq<T>, cache: seq<T>, k: nat)
    requires Cycles(served, cache) && k < |served|
    ensures served[k] == served[k % NUM_FRAMES]
    ensures NUM_FRAMES <= |served| ==> served[..NUM_FRAMES] == cache
  {
  }

  /** In a sequence without repetitions every member occurs exactly once. */
  lemma {:induction false} DistinctOccursOnce<T>(s: seq<T>, x: T)
    requires Distinct(s) && x in s
    ensures multiset(s)[x] == 1
  {
    if s[0] == x {
      assert s == [s[0]] + s[1..];
      assert x !in s[1..];
    } else {
      assert s == [s[0]] + s[1..];
      DistinctOccursOnce(s[1..], x);
    }
  }

  /**
   * Any NUM_FRAMES consecutive calls of a looping cursor serve the cache
   * rotated to start at the first call's index.
   */
  lemma RoundIsRotation<T>(served: seq<T>, cache: seq<T>, start: nat)
    requires Cycles(served, cache) && start + NUM_FRAMES <= |served|
    ensures var rot := start % NUM_FRAMES;
            served[start..start + NUM_FRAMES] == cache[rot..] + cache[..rot]
  {
    var rot := start % NUM_FRAMES;
    var round := served[start..start + NUM_FRAMES];
    forall i | 0 <= i < NUM_FRAMES
      ensures round[i] == (cache[rot..] + cache[..rot])[i]
    {
      assert round[i] == cache[(start + i) % NUM_FRAMES];
      if i < NUM_FRAMES - rot {
        assert (start + i) % NUM_FRAMES == rot + i;
      } else {
        assert (start + i) % NUM_FRAMES == rot + i - NUM_FRAMES;
      }
    }
  }

  /** A rotation of a sequence holds the same elements as many times. */
  lemma RotationSameMultiset<T>(s: seq<T>, rot: nat)
    requires rot <= |s|
    ensures multiset(s[rot..] + s[..rot]) == multiset(s)
  {
    assert s == s[..rot] + s[rot..];
  }

  /** The calls of a looping cursor NUM_FRAMES apart serve the same texture. */
  lemma SecondRoundRepeats<T>(served: seq<T>, cache: seq<T>, start: nat)
    requires Cycles(served, cache) && start + 2 * NUM_FRAMES <= |served|
    ensures served[start..start + NUM_FRAMES] == served[start + NUM_FRAMES..start + 2 * NUM_FRAMES]
  {
    var round := served[start..start + NUM_FRAMES];
    var again := served[start + NUM_FRAMES..start + 2 * NUM_FRAMES];
    forall i | 0 <= i < NUM_FRAMES
      ensures round[i] == again[i]
    {
      assert (start + NUM_FRAMES + i) % NUM_FRAMES == (start + i) % NUM_FRAMES;
    }
  }

  /** Two copies of a rotation of a distinct cache hold each cached element exactly twice. */
  lemma DoubledRoundCounts<T>(cache: seq<T>, round: seq<T>, x: T)
    requires Distinct(cache) && multiset(round) == multiset(cache) && x in cache
    ensures multiset(round + round)[x] == 2
  {
    DistinctOccursOnce(cache, x);
  }

  /**
   * Over any 2 * NUM_FRAMES consecutive calls a looping cursor serves every
   * cached texture exactly twice, the second round in the same order as the
   * first; starting at a round boundary, both rounds are the cache in order.
   */
  lemma {:induction false} TwoRoundsServeEachTwice<T>(served: seq<T>, cache: seq<T>, start: nat)
    requires Cycles(served, cache) && Distinct(cache) && start + 2 * NUM_FRAMES <= |served|
    ensures served[start..start + NUM_FRAMES] == served[start + NUM_FRAMES..start + 2 * NUM_FRAMES]
    ensures forall x :: x in cache ==> multiset(served[start..start + 2 * NUM_FRAMES])[x] == 2
    ensures start % NUM_FRAMES == 0 ==> served[start..start + 2 * NUM_FRAMES] == cache + cache
  {
    var rot := start % NUM_FRAMES;
    var round := served[start..start + NUM_FRAMES];
    SecondRoundRepeats(served, cache, start);
    assert served[start..start + 2 * NUM_FRAMES] == round + round;
    RoundIsRotation(served, cache, start);
    RotationSameMultiset(cache, rot);
    forall x | x in cache
      ensures multiset(round + round)[x] == 2
    {
      DoubledRoundCounts(cache, round, x);
    }
  }

  /**
   * The same facts about a looping cursor itself: any 2 * NUM_FRAMES
   * consecutive calls serve each cached texture twice, and the next call
   * serves the texture served NUM_FRAMES calls before it.
   */
  lemma CursorTwoRounds(f: Frames, start: nat)
    requires f.Valid() && f.full && start + 2 * NUM_FRAMES <= |f.served|
    ensures f.served[start..start + NUM_FRAMES] == f.served[start + NUM_FRAMES..start + 2 * NUM_FRAMES]
    ensures forall x :: x in f.completed ==> multiset(f.served[start..start + 2 * NUM_FRAMES])[x] == 2
    ensures f.served[|f.served| - NUM_FRAMES] == f.completed[f.current]
  {
    TwoRoundsServeEachTwice(f.served, f.completed, start);
    assert (|f.served| - NUM_FRAMES) % NUM_FRAMES == f.current;
  }
}

=== FILE: measurements.dfy ===
/**
 * Screen geometry taken once at start-up (src/measurements.rs): the bounding
 * box of all monitors, the size of the leftmost monitor and the window's
 * initial horizontal position. Every fold here is a left fold over the
 * monitors in the order the windowing system lists them.
 */
module Measurements {
  import opened Wrappers

  /** A connected monitor: its position (i32) and its physical size (u32). */
  datatype Monitor = Monitor(x: int, y: int, width: nat, height: nat)

  /** Right and bottom edges of a monitor, `position + size`. */
  function Right(m: Monitor): int { m.x + m.width }
  function Bottom(m: Monitor): int { m.y + m.height }

  /** The accumulator `(mnx, mny, mxx, mxy)` of the bounding-box fold. */
  datatype Box = Box(minX: int, minY: int, maxX: int, maxY: int)

  /** The record `Measurements`; every pair is an `(i32, i32)`. */
  datatype Measurements = Measurements(
    areaMinPos: (int, int),
    areaMaxPos: (int, int),
    areaSize: (int, int),
    monitorSize: (int, int),
    taskbarHeight: int,
    sharkPos: (int, int),
    sharkSize: (int, int))

  /** The one way measuring can fail: `expect("No monitors found")`. */
  datatype Error = NoMonitorsFound

  /** One step of the bounding-box fold: the first monitor seeds the box, every later one widens it. */
  function Extend(acc: Option<Box>, b: Monitor): (r: Box)
    ensures r.minX <= b.x && r.minY <= b.y && Right(b) <= r.maxX && Bottom(b) <= r.maxY
    ensures acc.Some? ==> r.minX <= acc.value.minX && r.minY <= acc.value.minY
                          && acc.value.maxX <= r.maxX && acc.value.maxY <= r.maxY
    ensures r.minX == b.x || (acc.Some? && r.minX == acc.value.minX)
    ensures r.minY == b.y || (acc.Some? && r.minY == acc.value.minY)
    ensures r.maxX == Right(b) || (acc.Some? && r.maxX == acc.value.maxX)
    ensures r.maxY == Bottom(b) || (acc.Some? && r.maxY == acc.value.maxY)
  {
    match acc
    case Some(a) =>
      Box(if a.minX < b.x then a.minX else b.x,
          if a.minY < b.y then a.minY else b.y,
          if a.maxX > Right(b) then a.maxX else Right(b),
          if a.maxY > Bottom(b) then a.maxY else Bottom(b))
    case None => Box(b.x, b.y, Right(b), Bottom(b))
  }

  /** `b` contains every monitor of `ms`. */
  predicate Encloses(b: Box, ms: seq<Monitor>)
  {
    forall i :: 0 <= i < |ms| ==>
      b.minX <= ms[i].x && b.minY <= ms[i].y && Right(ms[i]) <= b.maxX && Bottom(ms[i]) <= b.maxY
  }

  /** Every edge of `b` is an edge of some monitor of `ms`. */
  predicate Attained(b: Box, ms: seq<Monitor>)
  {
    && (exists i :: 0 <= i < |ms| && ms[i].x == b.minX)
    && (exists i :: 0 <= i < |ms| && ms[i].y == b.minY)
    && (exists i :: 0 <= i < |ms| && Right(ms[i]) == b.maxX)
    && (exists i :: 0 <= i < |ms| && Bottom(ms[i]) == b.maxY)
  }

  /**
   * The fold over all monitors: `None` when there are none, otherwise the
   * smallest box that holds them all, each of whose edges some monitor reaches.
   */
  function BoundsFold(ms: seq<Monitor>): (r: Option<Box>)
    ensures r.None? <==> ms == []
    ensures r.Some? ==> Encloses(r.value, ms) && Attained(r.value, ms)
  {
    if ms == [] then None
    else
      var prefix := ms[..|ms| - 1];
      var acc := BoundsFold(prefix);
      assert forall i :: 0 <= i < |prefix| ==> prefix[i] == ms[i];
      Some(Extend(acc, ms[|ms| - 1]))
  }

  /**
   * The fold that picks the leftmost monitor, as an index into `ms`: a
   * monitor with the least x, and on a tie the LAST such one, since the
   * accumulated monitor is kept only when it is strictly further left.
   */
  function LeftmostIndex(ms: seq<Monitor>): (r: Option<nat>)
    ensures r.None? <==> ms == []
    ensures r.Some? ==> r.value < |ms|
    ensures r.Some? ==> forall j :: 0 <= j < |ms| ==> ms[r.value].x <= ms[j].x
    ensures r.Some? ==> forall j :: r.value < j < |ms| ==> ms[r.value].x < ms[j].x
  {
    if ms == [] then None
    else
      var last := |ms| - 1;
      match LeftmostIndex(ms[..last])
      case None => Some(last)
      case Some(i) => Some(if ms[i].x < ms[last].x then i else last)
  }

  /** The initial x of the window: one sprite width left of the screen area on Windows, at its left edge elsewhere. */
  function InitialX(windows: bool, areaMinX: int, sharkWidth: int): (x: int)
    ensures 0 <= sharkWidth ==> areaMinX - sharkWidth <= x <= areaMinX
    ensures windows ==> x + sharkWidth == areaMinX   // right edge on the area's left edge: just off screen
    ensures !windows ==> x == areaMinX              // left edge on the area's left edge: fully on screen
  {
    if windows then areaMinX - sharkWidth else areaMinX
  }

  /**
   * `Measurements::new`, with what it computes in floating point or asks the
   * operating system for (taskbar height, sprite size, initial y) given.
   */
  function Measure(ms: seq<Monitor>, windows: bool, taskbarHeight: int, sharkSize: (int, int), sharkY: int)
    : (r: Result<Measurements, Error>)
    ensures r.Failure? <==> ms == []
    ensures r.Success? ==>
      var m := r.value;
      && Encloses(Box(m.areaMinPos.0, m.areaMinPos.1, m.areaMaxPos.0, m.areaMaxPos.1), ms)
      && Attained(Box(m.areaMinPos.0, m.areaMinPos.1, m.areaMaxPos.0, m.areaMaxPos.1), ms)
      && m.areaSize == (m.areaMaxPos.0 - m.areaMinPos.0, m.areaMaxPos.1 - m.areaMinPos.1)
      && 0 <= m.areaSize.0 && 0 <= m.areaSize.1
      && (exists i :: 0 <= i < |ms| && m.monitorSize == (ms[i].width, ms[i].height)
            && forall j :: 0 <= j < |ms| ==> ms[i].x <= ms[j].x)
      && LeftmostIndex(ms).Some?
      && m.monitorSize == (ms[LeftmostIndex(ms).value].width, ms[LeftmostIndex(ms).value].height)
      && m.sharkPos == (if windows then m.areaMinPos.0 - sharkSize.0 else m.areaMinPos.0, sharkY)
      && m.sharkSize == sharkSize && m.taskbarHeight == taskbarHeight
  {
    match BoundsFold(ms)
    case None => Failure(NoMonitorsFound)
    case Some(b) =>
      var i := LeftmostIndex(ms).value;
      var areaMinPos := (b.minX, b.minY);
      assert b.minX <= ms[0].x <= Right(ms[0]) <= b.maxX;
      assert b.minY <= ms[0].y <= Bottom(ms[0]) <= b.maxY;
      Success(Measurements(
        areaMinPos,
        (b.maxX, b.maxY),
        (b.maxX - b.minX, b.maxY - b.minY),
        (ms[i].width, ms[i].height),
        taskbarHeight,
        (InitialX(windows, areaMinPos.0, sharkSize.0), sharkY),
        sharkSize))
  }

  /** With a single monitor the area is that monitor: its position and its far corner. */
  lemma SingleMonitorArea(m: Monitor)
    ensures BoundsFold([m]) == Some(Box(m.x, m.y, Right(m), Bottom(m)))
  {
    assert [m][..0] == [];
  }
}

=== FILE: misc.dfy ===
/** The user events that the two timer threads post to the event loop (src/misc.rs). */
module Misc {

  /** `Move` nudges the window sideways; `Frame` asks for the next animation frame. */
  datatype UserEvent = Move | Frame
}

=== FILE: wrappers.dfy ===
/** Rust's `Option` and `Result`, as the modelled code uses them. */
module Wrappers {

  datatype Option<+T> = None | Some(value: T)

  datatype Result<+T, +E> = Success(value: T) | Failure(error: E)
}
